=== FILE: README.md ===
# openiboot USB control plane: descriptor tables, handler registry, bring-up guard

This project models the part of openiboot's `usb.c` that has software-visible state. The model covers four parts:

- **String table.** This is an append-only list of string descriptors addressed by 1-based indices. A parallel LANGID array holds one English (US) entry per string, and index 0 returns that array (section 9.6.7 of USB 2.0).
- **Descriptor tree.** There is one device descriptor, configurations that hold interfaces, and interfaces that hold endpoints. The tree is built lazily on the first device query while `configurations` is NULL. The configuration's interface and two bulk endpoints are added on the first query of configuration 0. The model includes:
  - the bit-packed `bmAttributes`, `bEndpointAddress` and `bMaxPower` fields (sections 9.6.3 and 9.6.6 of USB 2.0);
  - the derived `wTotalLength`;
  - the speed-to-packet-size table.
- **Endpoint handler registry.** Each physical endpoint has an IN slot and an OUT slot. Writes are gated by the direction the hardware fixes for that endpoint.
- **Lifecycle guard.** This covers the `usb_inited` flag, the `usb_state` phase, what `usb_setup` resets and what `usb_shutdown` releases and keeps.

The whole controller is one immutable `Usb.Controller` record. Each state-changing public call of usb.c (setup, shutdown, device query, configuration query, handler install) is a pure function returning `(new state, result)`. The sixth public call, the string query `usb_get_string_descriptor`, changes nothing and is `StringTable.GetString(c.strings, i)` on the controller's string table. `Usb.Valid` is the invariant of every state those calls reach:

- with no configurations there are no strings;
- otherwise configuration 0 is the only configuration;
- the strings are its four identity strings plus one per interface;
- a configuration that has interfaces carries a finalized `wTotalLength`;
- the LANGID array covers every string.

Each public call requires and preserves `Usb.Valid`. The internal steps `Usb.AddConfiguration`, `Usb.ReleaseConfigurations`, `Usb.InitializeDescriptors` and `Usb.ChangeState` do not require it. The first two do not preserve it on their own, because they change the configurations without the matching strings; the public calls that use them restore it.

Modules: `UsbTypes` (machine types, constants, build-time `Platform`), `StringTable`, `Descriptors`, `Handlers`, `Usb` (the controller).

Constants from `usb.h` and `hardware/usb.h`, which are not part of this model:

- **Descriptor sizes and type codes.** Sizes 18/9/9/7/2 and type codes 1..5 are assumed to be those of chapter 9 of USB 2.0. This holds if the structs are packed.
- **Direction values.** `USBOut = 0`, `USBIn = 1`, `USBBiDir = 2`. This agrees with the `direction > 2` test and with `(direction & 1) << 7` producing the IN bit.
- **Speed identifiers.** High 0, full 1, low 2, full-at-48 MHz 3. These follow the controller's enumerated-speed encoding.
- **`USB_NUM_ENDPOINTS = 6`.** usb.c arms `InEPRegs[USB_NUM_ENDPOINTS]` as the "7th EP".
- **Endpoint attribute values.** `USBBulk = 2`, `USBNoSynchronization = 0`, `USBDataEndpoint = 0`. These are the encodings of section 9.6.6 of USB 2.0, and they give the bulk endpoints their `bmAttributes` of 0x02.
- **`USB_LANGID_ENGLISH_US = 0x0409`.** This is the LANGID of English (United States).
- **`USB_2_0 = 0x0200`.** This is the `bcdUSB` value of section 9.6.1 of USB 2.0.
- **`USBStart` is the first value of `USBState`.** The zero-initialised `usb_state` therefore reads as Start, which `Usb.Boot` relies on.
- **Platform parameter.** Vendor, product and release IDs, `bMaxPacketSize0`, the interface class triple and `USB_EP_DIRECTION` are a `Platform` parameter.

Behaviour of usb.c that a caller might not expect, which the model keeps:

- `addEndpointDescriptor` accepts the bidirectional value 2 and encodes it as OUT (usb.c:306-315). Only values above 2 are refused.
- An unknown speed is not refused. `packetsizeFromSpeed` (usb.c:366-378) yields 0xFFFF, and the endpoints are built with that packet size.
- The LANGID block returned for index 0 never gets its `bLength` or `bDescriptorType` set (usb.c:323-339 writes only its `wLANGID` array).
- `usb_shutdown` keeps the handler table, the phase and the `usb_inited` flag. A later `usb_setup` therefore does nothing (usb.c:54-56, 402-423).

The two defects listed under "## Findings" are the exception. The controller uses their corrected versions, and the code as written is modelled alongside them.

## Model

| member | source | states |
|---|---|---|
| `StringTable.AddString` | trunk/openiboot/usb.c:323-339 | returns old count + 1 and grows the table by one string. The stored descriptor has `bLength = (2 + strlen) mod 256`, type STRING and the text. The LANGID array becomes one English (US) entry per string. Earlier strings are unchanged and the table stays valid |
| `StringTable.InternThenGet` | trunk/openiboot/usb.c:323-347 | the index `AddString` returns yields that string. Index 0 yields one English (US) LANGID per string, and every earlier index still yields what it did |
| `StringTable.GetString` | trunk/openiboot/usb.c:341-347 | index 0, and only index 0, yields the LANGID array. Indices above the count are outside the precondition |
| `StringTable.InternTwoStrings` | trunk/openiboot/usb.c:323-347 | two strings interned into an empty table get indices 1 and 2. Index 0 lists two English (US) LANGIDs, and each index yields its text with its length prefix |
| `StringTable.Release` | trunk/openiboot/usb.c:349-364 | no strings remain, the LANGID array is kept, and the result is still valid (a no-op when empty) |
| `StringTable.Initialize` | trunk/openiboot/usb.c:235-239 | the string count drops to 0 and the LANGID array is untouched |
| `Descriptors.ConfigAttributes` | trunk/openiboot/usb.c:271 | bit 7 is set, bit 6 is the low bit of selfPowered, bit 5 is the low bit of remoteWakeup, and bits 4..0 are zero |
| `Descriptors.MaxPowerUnits` | trunk/openiboot/usb.c:272 | below 512 mA, twice the result is the request rounded down to even. Above that, the uint8_t truncation shows |
| `Descriptors.EndpointAddress` | trunk/openiboot/usb.c:315 | bits 3..0 hold only `endpoint mod 4`, bits 6..4 are zero, and bit 7 is the low bit of the direction |
| `Descriptors.EndpointAddressRoundTrip` | trunk/openiboot/usb.c:315 | for endpoints 0..3 and IN or OUT, a host decodes the same number and direction |
| `Descriptors.EndpointNumberAliasing` | trunk/openiboot/usb.c:315 | endpoint n and n + 4 get the same address, so endpoints 4..7 do not read back their own number |
| `Descriptors.BiDirEncodesAsOut` | trunk/openiboot/usb.c:306-315 | the bidirectional value passes the direction check and is encoded as an OUT address |
| `Descriptors.EndpointAttributes` | trunk/openiboot/usb.c:316 | the transfer, sync and usage types sit in bits 1..0, 3..2 and 5..4, and bits 7..6 are zero |
| `Descriptors.PacketSize` | trunk/openiboot/usb.c:366-378 | 512 for high speed, 64 for either full speed and 32 for low speed. The result is 0xFFFF exactly when the speed is unknown, and every known result divides 512 |
| `Descriptors.AddInterface` | trunk/openiboot/usb.c:286-303 | appends one endpoint-less interface with the given fields and returns its index. `bNumInterfaces` goes up by one and earlier interfaces are unchanged |
| `Descriptors.AddEndpoint` | trunk/openiboot/usb.c:305-321 | refuses a direction above 2 with 255 and leaves the interface unchanged. Otherwise it appends exactly one endpoint with the packed address and attributes, returns its index and bumps `bNumEndpoints` |
| `Descriptors.LengthLoopSums` | trunk/openiboot/usb.c:280-283 | the wrapping loop over `bNumEndpoints` equals the serialized length of those interfaces modulo 2^16 |
| `Descriptors.EndConfiguration` | trunk/openiboot/usb.c:277-284 | `wTotalLength` becomes the configuration size plus, for each interface, the interface size and all its endpoint sizes, mod 2^16. Nothing else changes |
| `Descriptors.EndConfigurationAsWritten` | trunk/openiboot/usb.c:277-284 | with the loop bounded by configuration 0's count, the call reads past the target's interface array exactly when that count exceeds the target's own, at the first missing index. Otherwise `wTotalLength` covers only the target's first that-many interfaces and every other field is unchanged |
| `Descriptors.AsWrittenAgreesOnFirst` | trunk/openiboot/usb.c:281 | for configuration 0, the loop as written and the corrected loop give the same configuration |
| `Descriptors.AsWrittenMissesLaterConfigurations` | trunk/openiboot/usb.c:281 | when configuration 0 has no interfaces, a second configuration with one interface is finalized as 9 bytes instead of 18 |
| `Descriptors.AsWrittenReadsPastShorterConfiguration` | trunk/openiboot/usb.c:281-282 | when configuration 0 has one interface and configuration 1 has none, finalizing configuration 1 as written reads `interfaces[0]` of an empty array, while the corrected loop gives 9 |
| `Handlers.LoadDirections` | trunk/openiboot/usb.c:68-80 | each endpoint's direction follows its hardware capability. A capability no case names keeps the old entry, and the slots are unchanged |
| `Handlers.Reset` | trunk/openiboot/usb.c:82 | every IN and OUT slot is empty and the directions are kept |
| `Handlers.Install` | trunk/openiboot/usb.c:380-400 | returns 0 if and only if the endpoint is in range, the direction is IN or OUT, and the hardware direction equals it or is bidirectional. Otherwise it returns -1 and changes nothing. On success the lookup of that slot yields the new handler and every other slot is unchanged |
| `Handlers.LastWriteWins` | trunk/openiboot/usb.c:389-394 | installing twice on one slot equals installing the second handler alone |
| `Handlers.DirectionMismatchRejected` | trunk/openiboot/usb.c:385-397 | an OUT handler on an IN-only endpoint, an IN handler on an OUT-only endpoint, and a bidirectional request are all refused with no change |
| `Handlers.InstallAsWritten` | trunk/openiboot/usb.c:380-387 | with only the upper range check, exactly the negative endpoints reach an out-of-bounds read. Every other endpoint agrees with `Install` |
| `Handlers.NegativeEndpointPassesGuard` | trunk/openiboot/usb.c:381-385 | endpoint -1 passes the check as written and reads outside the table, while `Install` refuses it |
| `Usb.ChangeState` | trunk/openiboot/usb.c:425-430 | the phase becomes the requested one and nothing else changes, because the Configured branch is empty |
| `Usb.InitializeDescriptors` | trunk/openiboot/usb.c:235-239 | no configurations and no strings remain. The LANGID array, the device descriptor, the guard, the phase and the handlers are kept, and validity is preserved |
| `Usb.ReleaseConfigurations` | trunk/openiboot/usb.c:241-258 | no configurations remain. When some existed, `bNumConfigurations` becomes 0; when none existed, nothing changes. All other device fields and the rest of the controller are unchanged |
| `Usb.Boot` | trunk/openiboot/usb.c:13-31 | the zero-initialised statics: no guard, phase Start, every endpoint direction OUT and every handler slot empty, an all-zero device descriptor, no configurations, and an empty string table without a LANGID array. This state is valid |
| `Usb.Setup` | trunk/openiboot/usb.c:51-193 | with `usb_inited` set, it returns 0 and changes nothing. Otherwise it ends Powered with the guard set and every handler slot empty. Each endpoint's direction follows its hardware capability, and an endpoint whose capability no case names keeps its previous direction. There are no configurations and no strings, the device descriptor and LANGID array are kept, and the state stays valid |
| `Usb.Shutdown` | trunk/openiboot/usb.c:402-423 | releases configurations (count 0) and strings. It keeps the guard, phase, handlers and LANGID array, is a no-op when nothing is built, and keeps the state valid |
| `Usb.AddConfiguration` | trunk/openiboot/usb.c:260-275 | returns the old count and bumps it. It appends a configuration with no interfaces, `wTotalLength` 0, packed attributes and halved power. Earlier configurations and all other state are unchanged |
| `Usb.BuildDeviceTree` | trunk/openiboot/usb.c:199-217 | the device descriptor takes the platform identity, strings 1, 2 and 3 and one configuration. Strings 1..4 are manufacturer, product, empty serial and configuration name, and the LANGID array is exactly four English (US) entries. Configuration 0 has value 1, string 4, attributes 0x80, power 250 and no interfaces. The guard, phase and handlers are unchanged |
| `Usb.GetDeviceDescriptor` | trunk/openiboot/usb.c:199-220 | the first query builds the tree. The returned indices name the manufacturer, product and serial strings, and the LANGID array is exactly four English (US) entries. Configuration 0 has value 1, string 4, attributes 0x80, power 250 and no interfaces. The guard, phase and handlers are unchanged. Once configurations exist, the query changes nothing |
| `Usb.GetConfigurationDescriptor` | trunk/openiboot/usb.c:222-233 | the first query of configuration 0 while it has no interfaces adds interface string 5, leaving exactly five English (US) LANGIDs. It adds one interface with bulk endpoints 0x81 and 0x01, both sized `PacketSize(speed)`, sets `wTotalLength` to 9 + 9 + 2*7 and keeps the state valid. Any other query changes nothing |
| `Usb.InstallEndpointHandler` | trunk/openiboot/usb.c:380-400 | succeeds exactly when the hardware direction admits the request, and a refusal changes nothing. On success that one slot yields the new handler, every other slot and all directions are unchanged, and nothing outside the handler table changes. A negative endpoint is refused (the corrected check) |
| `Usb.SetupIdempotent` | trunk/openiboot/usb.c:54-56 | a second `usb_setup` is a no-op |
| `Usb.SetupAfterShutdownIsNoOp` | trunk/openiboot/usb.c:402-423 | after shutdown the guard is still set, so `usb_setup` does nothing and the old handlers stay installed |
| `Usb.ShutdownIdempotent` | trunk/openiboot/usb.c:241-244 | a second shutdown changes nothing |
| `Usb.DeviceDescriptorBuiltOnce` | trunk/openiboot/usb.c:199-220 | a second device query returns the cached descriptor and state |
| `Usb.RebuildAfterShutdown` | trunk/openiboot/usb.c:199-258 | after shutdown, the next device query rebuilds the same descriptor, configuration and string table (strings and LANGID array) whatever the history. It starts again at string index 1, and index 0 yields exactly four English (US) LANGIDs |
| `Usb.FirstEnumeration` | trunk/openiboot/usb.c:199-233 | setup, device query and first configuration query give a 32-byte configuration with one interface and five strings, in phase Powered. Both endpoints carry `PacketSize(speed)` |
| `Usb.InstalledHandlerIsFound` | trunk/openiboot/usb.c:380-400 | a handler installed on an admitted slot is what a lookup of that slot returns |
| `Usb.Step` | trunk/openiboot/usb.c:222-400 | one public call (setup, shutdown, device query, configuration query, handler install) keeps the state valid. Exactly two calls are undefined: a configuration query for an index that names no configuration (usb.c:232), and a handler install for a negative endpoint, which passes the range check at usb.c:381 |
| `Usb.Run` | trunk/openiboot/usb.c:51-423 | every state reached by any sequence of public calls from a valid state is valid and holds at most five strings |
| `Usb.GuardNeverCleared` | trunk/openiboot/usb.c:190 | once `usb_inited` is set, no sequence of calls clears it |
| `Usb.HandlersSurviveWithoutInstall` | trunk/openiboot/usb.c:54-56 | after bring-up, a sequence of calls without `usb_install_ep_handler` leaves the handler table exactly as it was, including later setups and shutdowns |
| `Usb.PhaseStaysPowered` | trunk/openiboot/usb.c:425-430 | after bring-up the phase stays Powered along every call sequence, because nothing enters the Configured branch |
| `Usb.BringUpThenAnything` | trunk/openiboot/usb.c:51-193 | any call sequence from boot that starts with `usb_setup` ends with the guard set and the phase Powered |

## Left out

- Register programming: the `SET_REG`/`GET_REG` sequences of `usb_setup` and `usb_shutdown`, the PHY/OTG reset, FIFO, DMA and interrupt-mask values, and the spin-waits on the reset bits. These are hardware I/O with no state in this model.
- `power_ctrl`, `clock_gate_switch`, `udelay`, `interrupt_install` and `interrupt_enable`. These are foreign calls whose bodies are not part of this model.
- `memalign` of the transfer buffers and all `malloc`/`realloc`/`free`. Tables are sequences, so allocation failure and leaks are not modelled. This includes the old tree that `initializeDescriptors` drops without freeing.
- `usbIRQHandler`, which is empty, and the `USBConfigured` branch of `change_state`, which is a TODO. The phase `Configured` is never entered.
- UTF-16 encoding of string payloads. usb.c copies raw characters, and the model keeps them as opaque characters.
- Handler function pointers are opaque numbers, with 0 standing for NULL.
- `StringTable.AddString`: requires fewer than 255 strings, so the wrap-around of the uint8_t `numStringDescriptors` is not modelled. Reachable states hold at most 5 strings.
- `Usb.AddConfiguration`: requires `bNumConfigurations` to match the array and stay below 255. Its only caller resets the count first.
- `Descriptors.AddInterface`: requires fewer than 255 interfaces.
- `Descriptors.AddEndpoint`: requires fewer than 255 endpoints.
- `StringTable.GetString`: its own contract only says which kind of result comes back. The content of each index is stated by `StringTable.InternThenGet`. An index above the count is undefined in the source and is excluded by the precondition.
- `Usb.GetConfigurationDescriptor`: requires the configurations to exist and the index to be in range. The source dereferences `configurations[index]` unchecked.
- `Usb.InstallEndpointHandler`: uses the corrected range check of `Handlers.Install`, so a negative endpoint is refused instead of indexing outside the tables. The code as written is `Handlers.InstallAsWritten`, and `Usb.Step` treats that call as undefined.
- Every public `Usb` call (`Usb.Setup`, `Usb.Shutdown`, `Usb.GetDeviceDescriptor`, `Usb.GetConfigurationDescriptor`, `Usb.InstallEndpointHandler`) requires `Usb.Valid`, the invariant of reachable states, which `Usb.Boot` establishes and each public call preserves.
- `addConfiguration` never initialises the new slot's `interfaces` pointer. The model starts every new configuration with no interfaces, which the NULL test on line 223 assumes.
- The LANGID block's `bLength` and `bDescriptorType` are never written, so index 0 yields only the LANGID array.

## Findings

| source | as written | input that shows it | evidently intended | confidence | as-written member | corrected member |
|---|---|---|---|---|---|---|
| trunk/openiboot/usb.c:281 | `endConfiguration` loops to `configurations->descriptor.bNumInterfaces`, which is configuration 0's count | configuration 0 with no interfaces and configuration 1 with one endpoint-less interface: finalizing configuration 1 gives `wTotalLength` 9, not 18. With the two swapped, finalizing configuration 1 reads `interfaces[0]` past its empty array | loop to the finalized configuration's own `bNumInterfaces` | high; not executed | `Descriptors.EndConfigurationAsWritten`, `Descriptors.AsWrittenMissesLaterConfigurations`, `Descriptors.AsWrittenReadsPastShorterConfiguration` | `Descriptors.EndConfiguration` |
| trunk/openiboot/usb.c:381 | `usb_install_ep_handler` checks only `endpoint >= USB_NUM_ENDPOINTS` | endpoint -1 passes the check and reads `endpoint_directions[-1]` | refuse negative endpoints as well | medium; not executed | `Handlers.InstallAsWritten`, `Handlers.NegativeEndpointPassesGuard` | `Handlers.Install` |

=== FILE: descriptors.dfy ===
/**
 The descriptor tree of usb.c. Each configuration holds its interfaces, and each
 interface holds its endpoints. All three are built by appending. The module
 covers the bit-packed fields of sections 9.6.3 and 9.6.6 of USB 2.0 and the
 derived wTotalLength.
 */
module Descriptors {
  import opened UsbTypes

  datatype DeviceDescriptor = DeviceDescriptor(
    bLength: byte,
    bDescriptorType: byte,
    bcdUSB: uint16,
    bDeviceClass: byte,
    bDeviceSubClass: byte,
    bDeviceProtocol: byte,
    bMaxPacketSize: byte,
    idVendor: uint16,
    idProduct: uint16,
    bcdDevice: uint16,
    iManufacturer: byte,
    iProduct: byte,
    iSerialNumber: byte,
    bNumConfigurations: byte)

  /** The zero-initialised static deviceDescriptor. */
  const ZeroDevice: DeviceDescriptor := DeviceDescriptor(0, 0, 0, 0, 0, 0, 0, 0, 0, 0, 0, 0, 0, 0)

  datatype ConfigurationDescriptor = ConfigurationDescriptor(
    bLength: byte,
    bDescriptorType: byte,
    wTotalLength: uint16,
    bNumInterfaces: byte,
    bConfigurationValue: byte,
    iConfiguration: byte,
    bmAttributes: byte,
    bMaxPower: byte)

  datatype InterfaceDescriptor = InterfaceDescriptor(
    bLength: byte,
    bDescriptorType: byte,
    bInterfaceNumber: byte,
    bAlternateSetting: byte,
    bNumEndpoints: byte,
    bInterfaceClass: byte,
    bInterfaceSubClass: byte,
    bInterfaceProtocol: byte,
    iInterface: byte)

  datatype EndpointDescriptor = EndpointDescriptor(
    bLength: byte,
    bDescriptorType: byte,
    bEndpointAddress: byte,
    bmAttributes: byte,
    wMaxPacketSize: uint16,
    bInterval: byte)

  /** USBInterface: the descriptor and the endpoint array it owns. */
  datatype Interface = Interface(descriptor: InterfaceDescriptor, endpoints: seq<EndpointDescriptor>)

  /** USBConfiguration: the descriptor and the interface array it owns. */
  datatype Configuration = Configuration(descriptor: ConfigurationDescriptor, interfaces: seq<Interface>)

  /** The counts in the descriptors match the arrays they describe. */
  predicate InterfaceWellFormed(i: Interface)
  {
    i.descriptor.bNumEndpoints == |i.endpoints|
  }

  predicate WellFormed(c: Configuration)
  {
    && c.descriptor.bNumInterfaces == |c.interfaces|
    && forall k :: 0 <= k < |c.interfaces| ==> InterfaceWellFormed(c.interfaces[k])
  }

  // ---------------------------------------------------------------------------
  // Bit fields

  /**
   bmAttributes of a configuration (section 9.6.3 of USB 2.0): bit 7 is reserved
   and set to one, bit 6 is self-powered, bit 5 is remote wakeup, and bits 4..0 are zero.
   */
  function ConfigAttributes(selfPowered: byte, remoteWakeup: byte): (r: byte)
    ensures r / 0x80 == 1
    ensures (r / 0x40) % 2 == selfPowered % 2
    ensures (r / 0x20) % 2 == remoteWakeup % 2
    ensures r % 0x20 == 0
  {
    0x80 + (selfPowered % 2) * 0x40 + (remoteWakeup % 2) * 0x20
  }

  /**
   bMaxPower in 2 mA units, stored into a uint8_t: below 512 mA it is the request
   rounded down to an even number of milliamps, and above that it wraps.
   */
  function MaxPowerUnits(maxPower: uint16): (r: byte)
    ensures maxPower < 0x200 ==> 2 * r <= maxPower <= 2 * r + 1
    ensures maxPower >= 0x200 ==> r == (maxPower / 2) % 0x100
  {
    (maxPower / 2) % 0x100
  }

  /**
   bEndpointAddress (section 9.6.6 of USB 2.0). Only the two low bits of the
   endpoint number are kept in bits 3..0. Bits 6..4 are zero. Bit 7 is bit 0 of
   the direction.
   */
  function EndpointAddress(endpoint: byte, direction: Direction): (r: byte)
    ensures r % 0x10 == endpoint % 4
    ensures (r / 0x10) % 8 == 0
    ensures r / 0x80 == direction % 2
  {
    endpoint % 4 + (direction % 2) * 0x80
  }

  /** Endpoint number and IN flag as a host reads them from bEndpointAddress. */
  function AddressNumber(address: byte): nat { address % 0x10 }
  predicate AddressIsIn(address: byte) { address / 0x80 == 1 }

  /** For endpoints 0..3 and a proper direction, the host reads back what was encoded. */
  lemma EndpointAddressRoundTrip(endpoint: byte, direction: Direction)
    requires endpoint < 4
    requires direction == DirIn || direction == DirOut
    ensures AddressNumber(EndpointAddress(endpoint, direction)) == endpoint
    ensures AddressIsIn(EndpointAddress(endpoint, direction)) <==> direction == DirIn
  {
  }

  /** The 0x3 mask makes endpoint n and endpoint n + 4 share an address, though the field has four bits. */
  lemma EndpointNumberAliasing(endpoint: byte, direction: Direction)
    requires endpoint < 0xFC
    ensures EndpointAddress(endpoint, direction) == EndpointAddress(endpoint + 4, direction)
    ensures endpoint < 4 ==> AddressNumber(EndpointAddress(endpoint + 4, direction)) != endpoint + 4
  {
  }

  /** A bidirectional direction value is accepted and encoded as OUT. */
  lemma BiDirEncodesAsOut(endpoint: byte)
    ensures EndpointAddress(endpoint, DirBiDir) == EndpointAddress(endpoint, DirOut)
    ensures !AddressIsIn(EndpointAddress(endpoint, DirBiDir))
  {
  }

  /**
   bmAttributes of an endpoint (section 9.6.6 of USB 2.0): transfer type in bits
   1..0, synchronisation type in bits 3..2, usage type in bits 5..4, and bits 7..6 zero.
   */
  function EndpointAttributes(transferType: nat, syncType: nat, usageType: nat): (r: byte)
    ensures r % 4 == transferType % 4
    ensures (r / 4) % 4 == syncType % 4
    ensures (r / 0x10) % 4 == usageType % 4
    ensures r < 0x40
  {
    transferType % 4 + (syncType % 4) * 4 + (usageType % 4) * 0x10
  }

  /** Speeds packetsizeFromSpeed recognises. */
  predicate KnownSpeed(speed: byte)
  {
    speed == HighSpeed || speed == FullSpeed || speed == FullSpeed48MHz || speed == LowSpeed
  }

  /**
   packetsizeFromSpeed: 512 bytes for high speed, 64 for either full speed, and 32
   for low speed. Any other identifier yields -1 converted to uint16_t, which is
   0xFFFF and not a packet size.
   */
  function PacketSize(speed: byte): (r: uint16)
    ensures r == 0xFFFF <==> !KnownSpeed(speed)
    ensures KnownSpeed(speed) ==> 32 <= r <= 512 && 512 % r == 0
    ensures speed == HighSpeed ==> r == 512
    ensures speed == FullSpeed || speed == FullSpeed48MHz ==> r == 64
    ensures speed == LowSpeed ==> r == 32
  {
    if speed == HighSpeed then 512
    else if speed == FullSpeed || speed == FullSpeed48MHz then 64
    else if speed == LowSpeed then 32
    else 0xFFFF
  }

  // ---------------------------------------------------------------------------
  // Building the tree

  /** The descriptor addConfiguration writes into the new slot; its interface array starts empty. */
  function NewConfiguration(bConfigurationValue: byte, iConfiguration: byte, selfPowered: byte, remoteWakeup: byte, maxPower: uint16): Configuration
  {
    Configuration(
      ConfigurationDescriptor(ConfigurationDescriptorSize, ConfigurationDescriptorType, 0, 0,
        bConfigurationValue, iConfiguration, ConfigAttributes(selfPowered, remoteWakeup), MaxPowerUnits(maxPower)),
      [])
  }

  /**
   addInterfaceDescriptor: appends one interface with no endpoints, bumps
   bNumInterfaces and returns the index of the new interface.
   */
  function AddInterface(c: Configuration, bInterfaceNumber: byte, bAlternateSetting: byte,
                        bInterfaceClass: byte, bInterfaceSubClass: byte, bInterfaceProtocol: byte, iInterface: byte): (r: (Configuration, byte))
    requires WellFormed(c)
    requires |c.interfaces| < 0xFF
    ensures WellFormed(r.0)
    ensures r.1 == |c.interfaces|
    ensures |r.0.interfaces| == |c.interfaces| + 1
    ensures r.0.interfaces[..|c.interfaces|] == c.interfaces
    ensures r.0.interfaces[r.1].endpoints == []
    ensures r.0.interfaces[r.1].descriptor.bInterfaceNumber == bInterfaceNumber
    ensures r.0.interfaces[r.1].descriptor.bAlternateSetting == bAlternateSetting
    ensures r.0.interfaces[r.1].descriptor.bInterfaceClass == bInterfaceClass
    ensures r.0.interfaces[r.1].descriptor.bInterfaceSubClass == bInterfaceSubClass
    ensures r.0.interfaces[r.1].descriptor.bInterfaceProtocol == bInterfaceProtocol
    ensures r.0.interfaces[r.1].descriptor.iInterface == iInterface
    ensures r.0.interfaces[r.1].descriptor.bLength == InterfaceDescriptorSize
    ensures r.0.interfaces[r.1].descriptor.bDescriptorType == InterfaceDescriptorType
    ensures r.0.descriptor == c.descriptor.(bNumInterfaces := |c.interfaces| + 1)
  {
    var newIndex := c.descriptor.bNumInterfaces;
    var d := InterfaceDescriptor(InterfaceDescriptorSize, InterfaceDescriptorType, bInterfaceNumber, bAlternateSetting,
      0, bInterfaceClass, bInterfaceSubClass, bInterfaceProtocol, iInterface);
    (Configuration(c.descriptor.(bNumInterfaces := newIndex + 1), c.interfaces + [Interface(d, [])]), newIndex)
  }

  /**
   addEndpointDescriptor: a direction above 2 is refused with -1 as a uint8_t (255),
   and the interface is left as it was. Any other direction appends exactly one
   endpoint with the packed address and attributes and returns its index.
   */
  function AddEndpoint(i: Interface, endpoint: byte, direction: Direction, transferType: nat, syncType: nat,
                       usageType: nat, wMaxPacketSize: uint16, bInterval: byte): (r: (Interface, byte))
    requires InterfaceWellFormed(i)
    requires |i.endpoints| < 0xFF
    ensures InterfaceWellFormed(r.0)
    ensures r.1 == 0xFF <==> direction > DirBiDir
    ensures direction > DirBiDir ==> r.0 == i
    ensures direction <= DirBiDir ==>
      && r.1 == |i.endpoints|
      && |r.0.endpoints| == |i.endpoints| + 1
      && r.0.endpoints[..|i.endpoints|] == i.endpoints
      && r.0.descriptor == i.descriptor.(bNumEndpoints := |i.endpoints| + 1)
      && r.0.endpoints[r.1] == EndpointDescriptor(EndpointDescriptorSize, EndpointDescriptorType,
           EndpointAddress(endpoint, direction), EndpointAttributes(transferType, syncType, usageType),
           wMaxPacketSize, bInterval)
  {
    if direction > DirBiDir then
      (i, 0xFF)
    else
      var newIndex := i.descriptor.bNumEndpoints;
      var e := EndpointDescriptor(EndpointDescriptorSize, EndpointDescriptorType,
        EndpointAddress(endpoint, direction), EndpointAttributes(transferType, syncType, usageType),
        wMaxPacketSize, bInterval);
      (Interface(i.descriptor.(bNumEndpoints := newIndex + 1), i.endpoints + [e]), newIndex)
  }

  // ---------------------------------------------------------------------------
  // wTotalLength

  /** Serialized length of a run of interfaces: each interface descriptor followed by its endpoint descriptors. */
  function InterfacesLength(ifs: seq<Interface>): nat
  {
    if ifs == [] then 0
    else InterfaceDescriptorSize + |ifs[0].endpoints| * EndpointDescriptorSize + InterfacesLength(ifs[1..])
  }

  /**
   The length a host reads for a configuration: the configuration descriptor plus,
   for each interface, its descriptor and all of its endpoint descriptors.
   */
  function TotalLength(c: Configuration): nat
  {
    ConfigurationDescriptorSize + InterfacesLength(c.interfaces)
  }

  /**
   The loop of endConfiguration, from interface i up to `bound`. It adds the
   interface size plus bNumEndpoints endpoint sizes into the uint16_t wTotalLength.
   */
  function LengthLoop(ifs: seq<Interface>, bound: nat, i: nat, total: uint16): uint16
    requires i <= bound <= |ifs|
    decreases bound - i
  {
    if i == bound then total
    else LengthLoop(ifs, bound, i + 1,
      (total + InterfaceDescriptorSize + ifs[i].descriptor.bNumEndpoints * EndpointDescriptorSize) % 0x1_0000)
  }

  lemma ModAddLeft(a: nat, b: nat)
    ensures (a % 0x1_0000 + b) % 0x1_0000 == (a + b) % 0x1_0000
  {
    var q := a / 0x1_0000;
    assert a == q * 0x1_0000 + a % 0x1_0000;
    assert (a + b) == (a % 0x1_0000 + b) + q * 0x1_0000;
  }

  lemma {:induction false} InterfacesLengthStep(ifs: seq<Interface>, i: nat, bound: nat)
    requires i < bound <= |ifs|
    ensures InterfacesLength(ifs[i..bound])
         == InterfaceDescriptorSize + |ifs[i].endpoints| * EndpointDescriptorSize + InterfacesLength(ifs[i + 1..bound])
  {
    assert ifs[i..bound][0] == ifs[i];
    assert ifs[i..bound][1..] == ifs[i + 1..bound];
  }

  /** The wrapping loop computes the serialized length of interfaces i..bound, modulo 2^16. */
  lemma {:induction false} LengthLoopSums(ifs: seq<Interface>, bound: nat, i: nat, total: uint16)
    requires i <= bound <= |ifs|
    requires forall k :: 0 <= k < |ifs| ==> InterfaceWellFormed(ifs[k])
    ensures LengthLoop(ifs, bound, i, total) == (total + InterfacesLength(ifs[i..bound])) % 0x1_0000
    decreases bound - i
  {
    if i == bound {
      assert ifs[i..bound] == [];
    } else {
      var step := InterfaceDescriptorSize + ifs[i].descriptor.bNumEndpoints * EndpointDescriptorSize;
      LengthLoopSums(ifs, bound, i + 1, (total + step) % 0x1_0000);
      InterfacesLengthStep(ifs, i, bound);
      ModAddLeft(total + step, InterfacesLength(ifs[i + 1..bound]));
    }
  }

  /**
   endConfiguration, with the loop bounded by the finalized configuration's own
   bNumInterfaces. wTotalLength becomes the serialized length of the whole
   configuration, wrapped to 16 bits. Nothing else changes.
   */
  function EndConfiguration(c: Configuration): (r: Configuration)
    requires WellFormed(c)
    ensures r.descriptor.wTotalLength == TotalLength(c) % 0x1_0000
    ensures r.descriptor == c.descriptor.(wTotalLength := r.descriptor.wTotalLength)
    ensures r.interfaces == c.interfaces
    ensures WellFormed(r)
  {
    var total := LengthLoop(c.interfaces, c.descriptor.bNumInterfaces, 0, ConfigurationDescriptorSize);
    LengthLoopSums(c.interfaces, c.descriptor.bNumInterfaces, 0, ConfigurationDescriptorSize);
    assert c.interfaces[0..c.descriptor.bNumInterfaces] == c.interfaces;
    c.(descriptor := c.descriptor.(wTotalLength := total))
  }

  /**
   What endConfiguration as written does: finalize the configuration, or read
   `interfaces[at]` past the end of the target's interface array.
   */
  datatype AsWrittenLength = Finalized(config: Configuration) | ReadsPastInterfaces(at: nat)

  /**
   endConfiguration as written: the loop is bounded by configuration 0's
   bNumInterfaces, whatever configuration is being finalized. When that count
   exceeds the target's own interfaces, the loop reads the first missing one.
   Otherwise wTotalLength covers only the target's first that-many interfaces,
   and nothing else changes.
   */
  function EndConfigurationAsWritten(configs: seq<Configuration>, index: nat): (r: AsWrittenLength)
    requires index < |configs|
    requires WellFormed(configs[index])
    ensures r.ReadsPastInterfaces? <==> configs[0].descriptor.bNumInterfaces > |configs[index].interfaces|
    ensures r.ReadsPastInterfaces? ==> r.at == |configs[index].interfaces|
    ensures r.Finalized? ==> r.config.interfaces == configs[index].interfaces
    ensures r.Finalized? ==> r.config.descriptor == configs[index].descriptor.(wTotalLength :=
      (ConfigurationDescriptorSize + InterfacesLength(configs[index].interfaces[..configs[0].descriptor.bNumInterfaces])) % 0x1_0000)
  {
    var c := configs[index];
    var bound := configs[0].descriptor.bNumInterfaces;
    if bound > |c.interfaces| then
      ReadsPastInterfaces(|c.interfaces|)
    else
      var total := LengthLoop(c.interfaces, bound, 0, ConfigurationDescriptorSize);
      LengthLoopSums(c.interfaces, bound, 0, ConfigurationDescriptorSize);
      assert c.interfaces[0..bound] == c.interfaces[..bound];
      Finalized(c.(descriptor := c.descriptor.(wTotalLength := total)))
  }

  /** For configuration 0, the only one usb.c finalizes, the loop as written agrees with the corrected one. */
  lemma AsWrittenAgreesOnFirst(configs: seq<Configuration>)
    requires |configs| > 0
    requires WellFormed(configs[0])
    ensures EndConfigurationAsWritten(configs, 0) == Finalized(EndConfiguration(configs[0]))
  {
    assert configs[0].interfaces[..configs[0].descriptor.bNumInterfaces] == configs[0].interfaces;
  }

  /**
   Take configuration 0 with no interfaces and configuration 1 with one
   endpoint-less interface. Finalizing configuration 1 as written gives 9, while its
   serialized length is 18.
   */
  lemma AsWrittenMissesLaterConfigurations()
    ensures var empty := NewConfiguration(1, 0, 0, 0, 500);
      var withOne := AddInterface(NewConfiguration(2, 0, 0, 0, 500), 0, 0, 0, 0, 0, 0).0;
      && EndConfigurationAsWritten([empty, withOne], 1).Finalized?
      && EndConfigurationAsWritten([empty, withOne], 1).config.descriptor.wTotalLength == 9
      && TotalLength(withOne) == 18
      && EndConfiguration(withOne).descriptor.wTotalLength == 18
  {
    var empty := NewConfiguration(1, 0, 0, 0, 500);
    var withOne := AddInterface(NewConfiguration(2, 0, 0, 0, 500), 0, 0, 0, 0, 0, 0).0;
    assert withOne.interfaces[1..] == [];
    assert withOne.interfaces[..0] == [];
  }

  /**
   Swap the two: configuration 0 has one interface and configuration 1 has none.
   Finalizing configuration 1 as written reads interfaces[0] of an empty array,
   while the corrected loop gives 9.
   */
  lemma AsWrittenReadsPastShorterConfiguration()
    ensures var withOne := AddInterface(NewConfiguration(1, 0, 0, 0, 500), 0, 0, 0, 0, 0, 0).0;
      var empty := NewConfiguration(2, 0, 0, 0, 500);
      && EndConfigurationAsWritten([withOne, empty], 1) == ReadsPastInterfaces(0)
      && EndConfiguration(empty).descriptor.wTotalLength == 9
  {
  }
}

=== FILE: handlers.dfy ===
/**
 The endpoint handler registry of usb.c: a fixed table with an IN slot and an OUT
 slot per physical endpoint. Writes are gated by the direction the hardware fixes
 for each endpoint.
 */
module Handlers {
  import opened UsbTypes

  /** USBEndpointHandlerInfo: a handler (0 stands for the NULL function pointer) and its token. */
  datatype HandlerInfo = HandlerInfo(handler: nat, token: uint32)

  /** What memset(0) leaves in a slot. */
  const NoHandler: HandlerInfo := HandlerInfo(0, 0)

  /** USBEndpointBidirHandlerInfo. */
  datatype Slot = Slot(inSlot: HandlerInfo, outSlot: HandlerInfo)

  const EmptySlot: Slot := Slot(NoHandler, NoHandler)

  /** endpoint_directions and endpoint_handlers. */
  datatype Registry = Registry(directions: seq<Direction>, slots: seq<Slot>)

  predicate Shaped(r: Registry)
  {
    |r.directions| == NumEndpoints && |r.slots| == NumEndpoints
  }

  /** The zero-initialised statics: every endpoint reads as OUT (value 0) and every slot is empty. */
  const Initial: Registry := Registry([DirOut, DirOut, DirOut, DirOut, DirOut, DirOut],
    [EmptySlot, EmptySlot, EmptySlot, EmptySlot, EmptySlot, EmptySlot])

  /** The switch of usb_setup on one endpoint: a capability no case names keeps the previous entry. */
  function DirectionOf(cap: EpCapability, previous: Direction): Direction
  {
    match cap
    case CapBiDir => DirBiDir
    case CapIn => DirIn
    case CapOut => DirOut
    case CapOther => previous
  }

  /** The loop of usb_setup filling endpoint_directions from the hardware's per-endpoint capability. */
  function LoadDirections(r: Registry, caps: seq<EpCapability>): (r': Registry)
    requires Shaped(r)
    requires |caps| == NumEndpoints
    ensures Shaped(r')
    ensures r'.slots == r.slots
    ensures forall e :: 0 <= e < NumEndpoints && caps[e] == CapIn ==> r'.directions[e] == DirIn
    ensures forall e :: 0 <= e < NumEndpoints && caps[e] == CapOut ==> r'.directions[e] == DirOut
    ensures forall e :: 0 <= e < NumEndpoints && caps[e] == CapBiDir ==> r'.directions[e] == DirBiDir
    ensures forall e :: 0 <= e < NumEndpoints && caps[e] == CapOther ==> r'.directions[e] == r.directions[e]
  {
    r.(directions := seq(NumEndpoints, e requires 0 <= e < NumEndpoints => DirectionOf(caps[e], r.directions[e])))
  }

  /** The memset of usb_setup: every IN and OUT slot emptied, directions kept. */
  function Reset(r: Registry): (r': Registry)
    requires Shaped(r)
    ensures Shaped(r')
    ensures r'.directions == r.directions
    ensures forall e :: 0 <= e < NumEndpoints ==> r'.slots[e] == EmptySlot
  {
    r.(slots := seq(NumEndpoints, _ => EmptySlot))
  }

  /** The handler a transfer dispatcher would find for (endpoint, direction). */
  function Lookup(r: Registry, endpoint: nat, direction: Direction): HandlerInfo
    requires Shaped(r)
    requires endpoint < NumEndpoints
    requires direction == DirIn || direction == DirOut
  {
    if direction == DirIn then r.slots[endpoint].inSlot else r.slots[endpoint].outSlot
  }

  /**
   The hardware direction admits `direction` when it equals it or is
   bidirectional, and only IN and OUT handlers exist.
   */
  predicate Admits(r: Registry, endpoint: int, direction: Direction)
    requires Shaped(r)
  {
    && 0 <= endpoint < NumEndpoints
    && (direction == DirIn || direction == DirOut)
    && (r.directions[endpoint] == direction || r.directions[endpoint] == DirBiDir)
  }

  /**
   usb_install_ep_handler. It returns -1 and changes nothing in three cases:
   the endpoint is out of range, the hardware direction is neither the requested
   one nor bidirectional, or the direction is neither IN nor OUT. Otherwise it
   overwrites exactly the one (endpoint, direction) slot and returns 0. A negative
   endpoint is refused too (see InstallAsWritten).
   */
  function Install(r: Registry, endpoint: int, direction: Direction, info: HandlerInfo): (res: (Registry, int))
    requires Shaped(r)
    ensures Shaped(res.0)
    ensures res.1 == 0 || res.1 == -1
    ensures res.1 == 0 <==> Admits(r, endpoint, direction)
    ensures res.1 == -1 ==> res.0 == r
    ensures res.1 == 0 ==> Lookup(res.0, endpoint, direction) == info
    ensures res.0.directions == r.directions
    ensures forall e, d :: 0 <= e < NumEndpoints && (d == DirIn || d == DirOut) && (e != endpoint || d != direction)
              ==> Lookup(res.0, e, d) == Lookup(r, e, d)
  {
    if endpoint < 0 || endpoint >= NumEndpoints then
      (r, -1)
    else if r.directions[endpoint] != direction && r.directions[endpoint] != DirBiDir then
      (r, -1)
    else if direction == DirIn then
      (r.(slots := r.slots[endpoint := r.slots[endpoint].(inSlot := info)]), 0)
    else if direction == DirOut then
      (r.(slots := r.slots[endpoint := r.slots[endpoint].(outSlot := info)]), 0)
    else
      (r, -1)
  }

  /** Installing twice on the same slot leaves what installing the second handler alone leaves: last write wins. */
  lemma LastWriteWins(r: Registry, endpoint: int, direction: Direction, first: HandlerInfo, second: HandlerInfo)
    requires Shaped(r)
    ensures Install(Install(r, endpoint, direction, first).0, endpoint, direction, second) == Install(r, endpoint, direction, second)
  {
    var (r1, s1) := Install(r, endpoint, direction, first);
    if s1 == 0 {
      if direction == DirIn {
        assert r1.slots[endpoint := r1.slots[endpoint].(inSlot := second)]
            == r.slots[endpoint := r.slots[endpoint].(inSlot := second)];
      } else {
        assert r1.slots[endpoint := r1.slots[endpoint].(outSlot := second)]
            == r.slots[endpoint := r.slots[endpoint].(outSlot := second)];
      }
    }
  }

  /** An OUT handler can never be installed on an IN-only endpoint, and vice versa. */
  lemma DirectionMismatchRejected(r: Registry, endpoint: nat, info: HandlerInfo)
    requires Shaped(r)
    requires endpoint < NumEndpoints
    ensures r.directions[endpoint] == DirIn ==> Install(r, endpoint, DirOut, info) == (r, -1)
    ensures r.directions[endpoint] == DirOut ==> Install(r, endpoint, DirIn, info) == (r, -1)
    ensures Install(r, endpoint, DirBiDir, info) == (r, -1)
  {
  }

  /** What usb_install_ep_handler as written does: refuse, store, or read endpoint_directions out of bounds. */
  datatype AsWrittenOutcome = Refused | Stored(registry: Registry) | ReadsOutside(index: int)

  /**
   usb_install_ep_handler as written: the range check refuses only endpoints that
   are too large. A negative endpoint goes on to read endpoint_directions[endpoint],
   outside the array. On every endpoint it does index, it agrees with Install.
   */
  function InstallAsWritten(r: Registry, endpoint: int, direction: Direction, info: HandlerInfo): (o: AsWrittenOutcome)
    requires Shaped(r)
    ensures o.ReadsOutside? <==> endpoint < 0
    ensures endpoint >= 0 ==> (o.Stored? <==> Install(r, endpoint, direction, info).1 == 0)
    ensures o.Stored? ==> o.registry == Install(r, endpoint, direction, info).0
  {
    if endpoint >= NumEndpoints then Refused
    else if endpoint < 0 then ReadsOutside(endpoint)
    else
      var (r', status) := Install(r, endpoint, direction, info);
      if status == 0 then Stored(r') else Refused
  }

  /** Endpoint -1 passes the range check as written and reaches the out-of-bounds read; Install refuses it. */
  lemma NegativeEndpointPassesGuard(r: Registry, direction: Direction, info: HandlerInfo)
    requires Shaped(r)
    ensures InstallAsWritten(r, -1, direction, info) == ReadsOutside(-1)
    ensures Install(r, -1, direction, info) == (r, -1)
  {
  }
}

=== FILE: string_table.dfy ===
/**
 The string table of usb.c: an append-only list of string descriptors,
 addressed by 1-based indices, with a parallel LANGID list. The LANGID list is
 what string index 0 returns (section 9.6.7 of USB 2.0).
 */
module StringTable {
  import opened UsbTypes

  /** USBStringDescriptor: bLength, bDescriptorType and the copied bytes of the string. */
  datatype StringDescriptor = StringDescriptor(bLength: byte, bDescriptorType: byte, bString: seq<char>)

  /**
   `strings` holds stringDescriptors[0 .. numStringDescriptors). `langIds` holds the
   wLANGID array of firstStringDescriptor: `None` while that pointer is NULL. The
   array keeps its length when the strings are released.
   */
  datatype Table = Table(strings: seq<StringDescriptor>, langIds: Option<seq<uint16>>)

  /** The zero-initialised statics before any string is added. */
  const Empty: Table := Table([], None)

  /** What index 0 yields (the LANGID array) and what index i >= 1 yields (string i-1). */
  datatype StringQuery = LanguageIds(ids: Option<seq<uint16>>) | Text(descriptor: StringDescriptor)

  function LangIdCount(t: Table): nat
  {
    if t.langIds.None? then 0 else |t.langIds.value|
  }

  /** The LANGID array covers every string and holds only English (US) entries; the count fits its uint8_t. */
  predicate Valid(t: Table)
  {
    && |t.strings| < 0x100
    && LangIdCount(t) >= |t.strings|
    && (t.langIds.Some? ==> forall k :: 0 <= k < |t.langIds.value| ==> t.langIds.value[k] == LangIdEnglishUS)
  }

  /**
   The characters a `const char *` argument denotes: everything before its
   terminating NUL, so strlen is the length of the sequence.
   */
  type CString = s: seq<char> | '\0' !in s

  /** The descriptor addStringDescriptor builds: header plus strlen bytes, with bLength truncated to uint8_t. */
  function Describe(text: CString): StringDescriptor
  {
    StringDescriptor((StringDescriptorHeaderSize + |text|) % 0x100, StringDescriptorType, text)
  }

  /**
   addStringDescriptor: appends the string, grows the LANGID array to one entry per
   string with English (US) in the new slot, and returns the new 1-based index.
   */
  function AddString(t: Table, text: CString): (r: (Table, byte))
    requires Valid(t)
    requires |t.strings| < 0xFF
    ensures r.1 == |t.strings| + 1
    ensures |r.0.strings| == |t.strings| + 1
    ensures r.0.strings[..|t.strings|] == t.strings
    ensures r.0.strings[|t.strings|].bString == text
    ensures r.0.strings[|t.strings|].bDescriptorType == StringDescriptorType
    ensures r.0.strings[|t.strings|].bLength == (StringDescriptorHeaderSize + |text|) % 0x100
    ensures r.0.langIds.Some? && |r.0.langIds.value| == |t.strings| + 1
    ensures forall k :: 0 <= k < |t.strings| + 1 ==> r.0.langIds.value[k] == LangIdEnglishUS
    ensures Valid(r.0)
  {
    var newIndex := |t.strings|;
    var previous := if t.langIds.None? then [] else t.langIds.value;
    // realloc keeps the first newIndex entries; the new slot is set to English (US).
    var ids := previous[..newIndex] + [LangIdEnglishUS];
    (Table(t.strings + [Describe(text)], Some(ids)), newIndex + 1)
  }

  /** usb_get_string_descriptor: index 0 is the LANGID array, index i >= 1 is the (i-1)-th string. */
  function GetString(t: Table, index: int): (r: StringQuery)
    requires index == 0 || 1 <= index <= |t.strings|
    ensures r.LanguageIds? <==> index == 0
  {
    if index == 0 then LanguageIds(t.langIds) else Text(t.strings[index - 1])
  }

  /**
   Interning then looking up: the returned index yields the copied string, index 0
   yields one English (US) entry per string, and every earlier index is unchanged.
   */
  lemma InternThenGet(t: Table, text: CString)
    requires Valid(t)
    requires |t.strings| < 0xFF
    ensures var (t', i) := AddString(t, text);
      && GetString(t', i) == Text(Describe(text))
      && GetString(t', 0) == LanguageIds(Some(seq(i, _ => LangIdEnglishUS)))
      && forall j :: 1 <= j <= |t.strings| ==> GetString(t', j) == GetString(t, j)
  {
    var (t', i) := AddString(t, text);
    assert t'.langIds.value == seq(i, _ => LangIdEnglishUS);
    forall j | 1 <= j <= |t.strings|
      ensures GetString(t', j) == GetString(t, j)
    {
      assert t'.strings[j - 1] == t'.strings[..|t.strings|][j - 1];
    }
  }

  /** releaseStringDescriptors: drops every string; the LANGID array is left alone. No-op when there are none. */
  function Release(t: Table): (r: Table)
    ensures r.strings == []
    ensures r.langIds == t.langIds
    ensures Valid(t) ==> Valid(r)
  {
    if t.strings == [] then t else t.(strings := [])
  }

  /** The string part of initializeDescriptors: count 0 and a NULL table, the LANGID array untouched. */
  function Initialize(t: Table): (r: Table)
    ensures r.strings == []
    ensures r.langIds == t.langIds
    ensures Valid(t) ==> Valid(r)
  {
    t.(strings := [])
  }

  /**
   Two strings interned into an empty table get indices 1 and 2. Index 0 lists two
   English (US) LANGIDs, and each of the other indices yields its own text.
   */
  lemma InternTwoStrings(a: CString, b: CString)
    ensures var (t1, i1) := AddString(Empty, a);
      var (t2, i2) := AddString(t1, b);
      && i1 == 1 && i2 == 2
      && GetString(t2, 0) == LanguageIds(Some([LangIdEnglishUS, LangIdEnglishUS]))
      && GetString(t2, 1).descriptor.bString == a
      && GetString(t2, 1).descriptor.bLength == (2 + |a|) % 0x100
      && GetString(t2, 2).descriptor.bString == b
      && GetString(t2, 2).descriptor.bLength == (2 + |b|) % 0x100
  {
    var (t1, i1) := AddString(Empty, a);
    var (t2, i2) := AddString(t1, b);
    assert t2.strings[0] == t1.strings[0];
    assert t2.langIds.value == [LangIdEnglishUS, LangIdEnglishUS];
  }
}

=== FILE: usb.dfy ===
/**
 The controller state of usb.c as one immutable record, with pure transition
 functions for every operation. It covers the usb_inited guard, the usb_state
 phase, the endpoint handler registry, the device descriptor, the configuration
 tree and the string table. The register programming of usb_setup and
 usb_shutdown is abstracted away; only its effect on this state is modelled.
 */
module Usb {
  import opened UsbTypes
  import opened Descriptors
  import StringTable
  import Handlers

  /** USBState: the phases usb.c enters. */
  datatype Phase = Start | Powered | Configured

  datatype Controller = Controller(
    inited: bool,
    phase: Phase,
    handlers: Handlers.Registry,
    device: DeviceDescriptor,
    configs: seq<Configuration>,
    strings: StringTable.Table)

  // The strings the bootloader interns.
  const ManufacturerName: StringTable.CString := "Apple Inc."
  const ProductName: StringTable.CString := "Apple Mobile Device (OpenIBoot Mode)"
  const SerialNumberText: StringTable.CString := ""
  const ConfigurationName: StringTable.CString := "OpenIBoot Mode Configuration"
  const InterfaceName: StringTable.CString := "IF0"

  /** wTotalLength of the one configuration usb.c builds: itself, one interface and two endpoints. */
  const BulkConfigurationLength: nat := ConfigurationDescriptorSize + InterfaceDescriptorSize + 2 * EndpointDescriptorSize

  /**
   A configuration as usb.c leaves it: counts match arrays, at most one interface,
   and a configuration with an interface has been finalized.
   */
  predicate ConfigurationValid(cfg: Configuration)
  {
    && WellFormed(cfg)
    && |cfg.interfaces| <= 1
    && (cfg.interfaces != [] ==> cfg.descriptor.wTotalLength == TotalLength(cfg) % 0x1_0000)
  }

  /**
   Every state the operations below can reach. When there are no configurations
   there are no strings either. Otherwise configuration 0 is the only one, and the
   strings are its four identity strings plus one per interface.
   */
  predicate Valid(c: Controller)
  {
    && Handlers.Shaped(c.handlers)
    && StringTable.Valid(c.strings)
    && |c.configs| <= 1
    && (c.configs == [] ==> c.strings.strings == [])
    && (c.configs != [] ==>
          && ConfigurationValid(c.configs[0])
          && |c.strings.strings| == 4 + |c.configs[0].interfaces|)
  }

  /** The zero-initialised statics before usb_setup runs. */
  function Boot(): (c: Controller)
    ensures Valid(c)
    ensures !c.inited && c.configs == [] && c.strings.strings == []
    ensures c.phase == Start && c.handlers == Handlers.Initial && c.device == ZeroDevice
    ensures c.strings == StringTable.Empty
  {
    Controller(false, Start, Handlers.Initial, ZeroDevice, [], StringTable.Empty)
  }

  /** change_state: records the new phase; the USBConfigured branch has no effect yet, so nothing else changes. */
  function ChangeState(c: Controller, s: Phase): (r: Controller)
    ensures r.phase == s
    ensures r.(phase := c.phase) == c
  {
    c.(phase := s)
  }

  /** initializeDescriptors: no strings and NULL configurations; deviceDescriptor is not touched. */
  function InitializeDescriptors(c: Controller): (r: Controller)
    ensures r.configs == [] && r.strings.strings == []
    ensures r.strings.langIds == c.strings.langIds
    ensures r.device == c.device
    ensures r.inited == c.inited && r.phase == c.phase && r.handlers == c.handlers
    ensures Valid(c) ==> Valid(r)
  {
    c.(configs := [], strings := StringTable.Initialize(c.strings))
  }

  /**
   usb_setup. When usb_inited is already set it returns 0 and changes nothing.
   Otherwise it loads the endpoint directions from the hardware and empties every
   handler slot. It then drops the descriptors, ends in Powered and sets usb_inited.
   */
  function Setup(c: Controller, p: Platform): (r: (Controller, int))
    requires Valid(c)
    requires |p.epCapabilities| == NumEndpoints
    ensures r.1 == 0
    ensures Valid(r.0)
    ensures c.inited ==> r.0 == c
    ensures !c.inited ==>
      && r.0.inited
      && r.0.phase == Powered
      && (forall e :: 0 <= e < NumEndpoints ==> r.0.handlers.slots[e] == Handlers.EmptySlot)
      && (forall e :: 0 <= e < NumEndpoints && p.epCapabilities[e] == CapIn ==> r.0.handlers.directions[e] == DirIn)
      && (forall e :: 0 <= e < NumEndpoints && p.epCapabilities[e] == CapOut ==> r.0.handlers.directions[e] == DirOut)
      && (forall e :: 0 <= e < NumEndpoints && p.epCapabilities[e] == CapBiDir ==> r.0.handlers.directions[e] == DirBiDir)
      && (forall e :: 0 <= e < NumEndpoints && p.epCapabilities[e] == CapOther ==> r.0.handlers.directions[e] == c.handlers.directions[e])
      && r.0.configs == []
      && r.0.strings.strings == []
      && r.0.strings.langIds == c.strings.langIds
      && r.0.device == c.device
  {
    if c.inited then
      (c, 0)
    else
      var started := ChangeState(c, Start);
      var loaded := started.(handlers := Handlers.Reset(Handlers.LoadDirections(started.handlers, p.epCapabilities)));
      var initialized := InitializeDescriptors(loaded);
      var powered := ChangeState(initialized, Powered);
      (powered.(inited := true), 0)
  }

  /** releaseConfigurations: a no-op when configurations is NULL, else frees the tree and zeroes the count. */
  function ReleaseConfigurations(c: Controller): (r: Controller)
    ensures r.configs == []
    ensures c.configs == [] ==> r == c
    ensures c.configs != [] ==> r.device.bNumConfigurations == 0
    ensures r.device.(bNumConfigurations := c.device.bNumConfigurations) == c.device
    ensures r.(configs := c.configs, device := c.device) == c
  {
    if c.configs == [] then c
    else c.(configs := [], device := c.device.(bNumConfigurations := 0))
  }

  /**
   usb_shutdown. It releases the configurations and the strings and returns 0. It
   clears neither usb_inited nor the handler table, and it leaves the phase and the
   LANGID array as they were. On a state with nothing built it changes nothing.
   */
  function Shutdown(c: Controller): (r: (Controller, int))
    requires Valid(c)
    ensures r.1 == 0
    ensures Valid(r.0)
    ensures r.0.configs == [] && r.0.strings.strings == []
    ensures r.0.inited == c.inited && r.0.phase == c.phase && r.0.handlers == c.handlers
    ensures r.0.strings.langIds == c.strings.langIds
    ensures c.configs != [] ==> r.0.device == c.device.(bNumConfigurations := 0)
    ensures c.configs == [] ==> r.0 == c
  {
    var released := ReleaseConfigurations(c);
    (released.(strings := StringTable.Release(released.strings)), 0)
  }

  /**
   addConfiguration. It returns the previous configuration count and increments
   it. It appends a configuration with no interfaces, wTotalLength 0, the packed
   attributes and the power in 2 mA units. Earlier configurations are unchanged.
   */
  function AddConfiguration(c: Controller, bConfigurationValue: byte, iConfiguration: byte,
                            selfPowered: byte, remoteWakeup: byte, maxPower: uint16): (r: (Controller, byte))
    requires c.device.bNumConfigurations == |c.configs|
    requires |c.configs| < 0xFF
    ensures r.1 == |c.configs|
    ensures r.0.device == c.device.(bNumConfigurations := |c.configs| + 1)
    ensures |r.0.configs| == |c.configs| + 1
    ensures r.0.configs[..|c.configs|] == c.configs
    ensures r.0.configs[r.1].interfaces == []
    ensures r.0.configs[r.1].descriptor
         == ConfigurationDescriptor(ConfigurationDescriptorSize, ConfigurationDescriptorType, 0, 0, bConfigurationValue,
              iConfiguration, ConfigAttributes(selfPowered, remoteWakeup), MaxPowerUnits(maxPower))
    ensures r.0.(configs := c.configs, device := c.device) == c
  {
    var newIndex := c.device.bNumConfigurations;
    var c' := c.(device := c.device.(bNumConfigurations := newIndex + 1),
                 configs := c.configs + [NewConfiguration(bConfigurationValue, iConfiguration, selfPowered, remoteWakeup, maxPower)]);
    (c', newIndex)
  }

  /**
   The body of usb_get_device_descriptor under `configurations == NULL`. It fills
   in the descriptor, interns the three identity strings and the configuration
   string, and adds the single configuration.
   */
  function BuildDeviceTree(c: Controller, p: Platform): (r: Controller)
    requires Valid(c)
    requires c.configs == []
    ensures Valid(r)
    ensures r.device == DeviceDescriptor(DeviceDescriptorSize, DeviceDescriptorType, Usb20, 0, 0, 0, p.bMaxPacketSize0,
                                         p.idVendor, p.idProduct, p.bcdDevice, 1, 2, 3, 1)
    ensures |r.strings.strings| == 4
    ensures StringTable.GetString(r.strings, 1) == StringTable.Text(StringTable.Describe(ManufacturerName))
    ensures StringTable.GetString(r.strings, 2) == StringTable.Text(StringTable.Describe(ProductName))
    ensures StringTable.GetString(r.strings, 3) == StringTable.Text(StringTable.Describe(SerialNumberText))
    ensures StringTable.GetString(r.strings, 4) == StringTable.Text(StringTable.Describe(ConfigurationName))
    ensures |r.configs| == 1
    ensures r.configs[0].interfaces == []
    ensures r.configs[0].descriptor == ConfigurationDescriptor(ConfigurationDescriptorSize, ConfigurationDescriptorType,
                                                               0, 0, 1, 4, 0x80, 250)
    ensures r.strings.langIds == Some(seq(4, _ => LangIdEnglishUS))
    ensures r.inited == c.inited && r.phase == c.phase && r.handlers == c.handlers
  {
    var (s1, iManufacturer) := StringTable.AddString(c.strings, ManufacturerName);
    var (s2, iProduct) := StringTable.AddString(s1, ProductName);
    var (s3, iSerialNumber) := StringTable.AddString(s2, SerialNumberText);
    var device := DeviceDescriptor(DeviceDescriptorSize, DeviceDescriptorType, Usb20, 0, 0, 0, p.bMaxPacketSize0,
                                   p.idVendor, p.idProduct, p.bcdDevice, iManufacturer, iProduct, iSerialNumber, 0);
    var (s4, iConfiguration) := StringTable.AddString(s3, ConfigurationName);
    assert s4.strings[..3] == s3.strings && s3.strings[..2] == s2.strings && s2.strings[..1] == s1.strings;
    assert s4.strings[0] == s1.strings[0] && s4.strings[1] == s2.strings[1] && s4.strings[2] == s3.strings[2];
    assert s4.langIds.value == seq(4, _ => LangIdEnglishUS);
    var (c', _) := AddConfiguration(c.(device := device, strings := s4), 1, iConfiguration, 0, 0, 500);
    c'
  }

  /**
   usb_get_device_descriptor. While configurations is NULL it builds the tree;
   the returned descriptor's string indices then name the manufacturer, product
   and serial strings. Once configurations exist, the call changes nothing.
   */
  function GetDeviceDescriptor(c: Controller, p: Platform): (r: (Controller, DeviceDescriptor))
    requires Valid(c)
    ensures Valid(r.0)
    ensures r.1 == r.0.device
    ensures c.configs != [] ==> r.0 == c
    ensures c.configs == [] ==>
      && r.1 == DeviceDescriptor(DeviceDescriptorSize, DeviceDescriptorType, Usb20, 0, 0, 0, p.bMaxPacketSize0,
                                 p.idVendor, p.idProduct, p.bcdDevice, 1, 2, 3, 1)
      && |r.0.strings.strings| == 4
      && StringTable.GetString(r.0.strings, r.1.iManufacturer) == StringTable.Text(StringTable.Describe(ManufacturerName))
      && StringTable.GetString(r.0.strings, r.1.iProduct) == StringTable.Text(StringTable.Describe(ProductName))
      && StringTable.GetString(r.0.strings, r.1.iSerialNumber) == StringTable.Text(StringTable.Describe(SerialNumberText))
      && |r.0.configs| == 1
      && r.0.configs[0].descriptor.iConfiguration == 4
      && StringTable.GetString(r.0.strings, r.0.configs[0].descriptor.iConfiguration)
         == StringTable.Text(StringTable.Describe(ConfigurationName))
      && r.0.configs[0].interfaces == []
      && r.0.configs[0].descriptor == ConfigurationDescriptor(ConfigurationDescriptorSize, ConfigurationDescriptorType,
                                                              0, 0, 1, 4, 0x80, 250)
      && r.0.strings.langIds == Some(seq(4, _ => LangIdEnglishUS))
      && r.0.inited == c.inited && r.0.phase == c.phase && r.0.handlers == c.handlers
  {
    if c.configs != [] then
      (c, c.device)
    else
      var built := BuildDeviceTree(c, p);
      (built, built.device)
  }

  /**
   usb_get_configuration_descriptor. On the first query of configuration 0 while
   it has no interfaces, it interns the interface string and adds one interface.
   That interface gets a bulk IN and a bulk OUT endpoint, both numbered 1, with
   the packet size of the negotiated speed. The call then finalizes wTotalLength.
   Any other query changes nothing. The index must name an existing configuration.
   */
  function GetConfigurationDescriptor(c: Controller, p: Platform, index: int, speed: byte): (r: (Controller, ConfigurationDescriptor))
    requires Valid(c)
    requires 0 <= index < |c.configs|
    ensures Valid(r.0)
    ensures |r.0.configs| == |c.configs| && r.1 == r.0.configs[index].descriptor
    ensures !(index == 0 && c.configs[0].interfaces == []) ==> r.0 == c
    ensures index == 0 && c.configs[0].interfaces == [] ==>
      && |r.0.configs[0].interfaces| == 1
      && r.0.configs[0].descriptor == c.configs[0].descriptor.(bNumInterfaces := 1, wTotalLength := BulkConfigurationLength)
      && var iface := r.0.configs[0].interfaces[0];
      && iface.descriptor == InterfaceDescriptor(InterfaceDescriptorSize, InterfaceDescriptorType, 0, 0, 2,
                                                 p.interfaceClass, p.interfaceSubClass, p.interfaceProtocol, 5)
      && StringTable.GetString(r.0.strings, iface.descriptor.iInterface) == StringTable.Text(StringTable.Describe(InterfaceName))
      && |iface.endpoints| == 2
      && iface.endpoints[0] == EndpointDescriptor(EndpointDescriptorSize, EndpointDescriptorType, 0x81, 0x02, PacketSize(speed), 0)
      && iface.endpoints[1] == EndpointDescriptor(EndpointDescriptorSize, EndpointDescriptorType, 0x01, 0x02, PacketSize(speed), 0)
      && r.0.strings.strings[..4] == c.strings.strings
      && r.0.strings.langIds == Some(seq(5, _ => LangIdEnglishUS))
      && r.0.inited == c.inited && r.0.phase == c.phase && r.0.handlers == c.handlers && r.0.device == c.device
  {
    if index == 0 && c.configs[0].interfaces == [] then
      var (s1, iInterface) := StringTable.AddString(c.strings, InterfaceName);
      assert s1.langIds.value == seq(5, _ => LangIdEnglishUS);
      var (cfg1, k) := AddInterface(c.configs[0], 0, 0, p.interfaceClass, p.interfaceSubClass, p.interfaceProtocol, iInterface);
      var size := PacketSize(speed);
      var (in1, _) := AddEndpoint(cfg1.interfaces[k], 1, DirIn, TransferBulk, NoSynchronization, DataEndpoint, size, 0);
      var (in2, _) := AddEndpoint(in1, 1, DirOut, TransferBulk, NoSynchronization, DataEndpoint, size, 0);
      var cfg2 := cfg1.(interfaces := cfg1.interfaces[k := in2]);
      var cfg3 := EndConfiguration(cfg2);
      var c' := c.(strings := s1, configs := c.configs[0 := cfg3]);
      (c', c'.configs[index].descriptor)
    else
      (c, c.configs[index].descriptor)
  }

  /**
   usb_install_ep_handler on the controller, with the corrected range check of
   Handlers.Install. On success exactly the one (endpoint, direction) slot holds
   the new handler; nothing else in the controller changes.
   */
  function InstallEndpointHandler(c: Controller, endpoint: int, direction: Direction, info: Handlers.HandlerInfo): (r: (Controller, int))
    requires Valid(c)
    ensures Valid(r.0)
    ensures r.1 == 0 || r.1 == -1
    ensures r.1 == 0 <==> Handlers.Admits(c.handlers, endpoint, direction)
    ensures r.1 != 0 ==> r.0 == c
    ensures r.0.(handlers := c.handlers) == c
    ensures r.0.handlers.directions == c.handlers.directions
    ensures r.1 == 0 ==> Handlers.Lookup(r.0.handlers, endpoint, direction) == info
    ensures forall e, d :: 0 <= e < NumEndpoints && (d == DirIn || d == DirOut) && (e != endpoint || d != direction)
              ==> Handlers.Lookup(r.0.handlers, e, d) == Handlers.Lookup(c.handlers, e, d)
  {
    var (h, status) := Handlers.Install(c.handlers, endpoint, direction, info);
    (c.(handlers := h), status)
  }

  // ---------------------------------------------------------------------------
  // Lifecycle properties

  /** A second usb_setup without an intervening reset of usb_inited changes nothing. */
  lemma SetupIdempotent(c: Controller, p: Platform)
    requires Valid(c)
    requires |p.epCapabilities| == NumEndpoints
    ensures Setup(Setup(c, p).0, p) == Setup(c, p)
  {
  }

  /**
   usb_shutdown leaves usb_inited set, so a later usb_setup is a no-op. The
   controller stays without descriptors, and the handlers installed before the
   shutdown stay in place.
   */
  lemma SetupAfterShutdownIsNoOp(c: Controller, p: Platform)
    requires Valid(c)
    requires c.inited
    requires |p.epCapabilities| == NumEndpoints
    ensures var down := Shutdown(c).0;
      && Setup(down, p).0 == down
      && down.handlers == c.handlers
      && down.configs == []
  {
  }

  /** Releasing twice is releasing once. */
  lemma ShutdownIdempotent(c: Controller)
    requires Valid(c)
    ensures Shutdown(Shutdown(c).0).0 == Shutdown(c).0
  {
  }

  /** The device descriptor is built at most once: a second query returns the cached one. */
  lemma DeviceDescriptorBuiltOnce(c: Controller, p: Platform)
    requires Valid(c)
    ensures GetDeviceDescriptor(GetDeviceDescriptor(c, p).0, p) == GetDeviceDescriptor(c, p)
  {
  }

  /**
   After a shutdown, the next device query rebuilds the same tree whatever happened
   before. The string indices start again at 1.
   */
  lemma RebuildAfterShutdown(c1: Controller, c2: Controller, p: Platform)
    requires Valid(c1) && Valid(c2)
    ensures var (d1, desc1) := GetDeviceDescriptor(Shutdown(c1).0, p);
      var (d2, desc2) := GetDeviceDescriptor(Shutdown(c2).0, p);
      && desc1 == desc2
      && desc1.iManufacturer == 1
      && d1.configs == d2.configs
      && d1.strings == d2.strings
      && StringTable.GetString(d1.strings, 0) == StringTable.LanguageIds(Some(seq(4, _ => LangIdEnglishUS)))
  {
    var (d1, desc1) := GetDeviceDescriptor(Shutdown(c1).0, p);
    var (d2, desc2) := GetDeviceDescriptor(Shutdown(c2).0, p);
    assert d1.strings.strings[0] == d2.strings.strings[0];
    assert d1.strings.strings[1] == d2.strings.strings[1];
    assert d1.strings.strings[2] == d2.strings.strings[2];
    assert d1.strings.strings[3] == d2.strings.strings[3];
  }

  /**
   Bring-up, the device query and the first configuration query together. The
   result is a 32-byte configuration whose two endpoints have the packet size of
   the negotiated speed. Five strings are interned.
   */
  lemma FirstEnumeration(p: Platform, speed: byte)
    requires |p.epCapabilities| == NumEndpoints
    ensures var up := Setup(Boot(), p).0;
      var withDevice := GetDeviceDescriptor(up, p).0;
      var (done, cfg) := GetConfigurationDescriptor(withDevice, p, 0, speed);
      && cfg.wTotalLength == 32
      && cfg.bNumInterfaces == 1
      && done.configs[0].interfaces[0].endpoints[0].wMaxPacketSize == PacketSize(speed)
      && done.configs[0].interfaces[0].endpoints[1].wMaxPacketSize == PacketSize(speed)
      && |done.strings.strings| == 5
      && done.phase == Powered
  {
  }

  /** A handler installed after bring-up is what a dispatcher finds, until the next install on that slot. */
  lemma InstalledHandlerIsFound(c: Controller, endpoint: nat, direction: Direction, info: Handlers.HandlerInfo)
    requires Valid(c)
    requires endpoint < NumEndpoints
    requires direction == DirIn || direction == DirOut
    requires c.handlers.directions[endpoint] == direction || c.handlers.directions[endpoint] == DirBiDir
    ensures var (c', status) := InstallEndpointHandler(c, endpoint, direction, info);
      && status == 0
      && Handlers.Lookup(c'.handlers, endpoint, direction) == info
  {
  }

  // ---------------------------------------------------------------------------
  // Call sequences

  /** One call into usb.c from the rest of the bootloader or from the host's enumeration. */
  datatype Call =
    | CallSetup
    | CallShutdown
    | CallGetDevice
    | CallGetConfiguration(index: int, speed: byte)
    | CallInstall(endpoint: int, direction: Direction, info: Handlers.HandlerInfo)

  /**
   One call. Two calls are undefined in usb.c and yield None: a configuration
   query for an index that names no configuration, and a handler install for a
   negative endpoint, which passes the range check and indexes outside the
   tables. Every other call yields the new state, which is again valid.
   */
  function Step(c: Controller, p: Platform, call: Call): (r: Option<Controller>)
    requires Valid(c)
    requires |p.epCapabilities| == NumEndpoints
    ensures r.None? <==>
      || (call.CallGetConfiguration? && !(0 <= call.index < |c.configs|))
      || (call.CallInstall? && call.endpoint < 0)
    ensures r.Some? ==> Valid(r.value)
  {
    match call
    case CallSetup => Some(Setup(c, p).0)
    case CallShutdown => Some(Shutdown(c).0)
    case CallGetDevice => Some(GetDeviceDescriptor(c, p).0)
    case CallGetConfiguration(index, speed) =>
      if 0 <= index < |c.configs| then Some(GetConfigurationDescriptor(c, p, index, speed).0) else None
    case CallInstall(endpoint, direction, info) =>
      if endpoint < 0 then None else Some(InstallEndpointHandler(c, endpoint, direction, info).0)
  }

  /**
   A sequence of calls, stopping at the first undefined one. Every state it
   reaches satisfies Valid.
   */
  function Run(c: Controller, p: Platform, calls: seq<Call>): (r: Option<Controller>)
    requires Valid(c)
    requires |p.epCapabilities| == NumEndpoints
    ensures r.Some? ==> Valid(r.value)
    ensures r.Some? ==> |r.value.strings.strings| <= 5
    decreases |calls|
  {
    if calls == [] then Some(c)
    else
      match Step(c, p, calls[0])
      case None => None
      case Some(c') => Run(c', p, calls[1..])
  }

  /** Once usb_setup has set usb_inited, no call clears it. */
  lemma {:induction false} GuardNeverCleared(c: Controller, p: Platform, calls: seq<Call>)
    requires Valid(c)
    requires |p.epCapabilities| == NumEndpoints
    requires c.inited
    ensures Run(c, p, calls).Some? ==> Run(c, p, calls).value.inited
    decreases |calls|
  {
    if calls != [] {
      match Step(c, p, calls[0])
      case None =>
      case Some(c') =>
        GuardNeverCleared(c', p, calls[1..]);
    }
  }

  /**
   After bring-up, only usb_install_ep_handler changes the handler table. A later
   usb_setup, a shutdown or an enumeration leaves installed handlers in place.
   */
  lemma {:induction false} HandlersSurviveWithoutInstall(c: Controller, p: Platform, calls: seq<Call>)
    requires Valid(c)
    requires |p.epCapabilities| == NumEndpoints
    requires c.inited
    requires forall k :: 0 <= k < |calls| ==> !calls[k].CallInstall?
    ensures Run(c, p, calls).Some? ==> Run(c, p, calls).value.handlers == c.handlers
    decreases |calls|
  {
    if calls != [] {
      match Step(c, p, calls[0])
      case None =>
      case Some(c') =>
        assert c'.handlers == c.handlers && c'.inited;
        HandlersSurviveWithoutInstall(c', p, calls[1..]);
    }
  }

  /** A trace from boot that starts with usb_setup ends in a state whose guard is set and whose phase is Powered. */
  lemma {:induction false} BringUpThenAnything(p: Platform, calls: seq<Call>)
    requires |p.epCapabilities| == NumEndpoints
    ensures var r := Run(Boot(), p, [CallSetup] + calls);
      r.Some? ==> r.value.inited && r.value.phase == Powered
  {
    var up := Setup(Boot(), p).0;
    assert ([CallSetup] + calls)[1..] == calls;
    assert Run(Boot(), p, [CallSetup] + calls) == Run(up, p, calls);
    PhaseStaysPowered(up, p, calls);
  }

  /** Nothing after bring-up moves the phase away from Powered: the Configured branch is never taken. */
  lemma {:induction false} PhaseStaysPowered(c: Controller, p: Platform, calls: seq<Call>)
    requires Valid(c)
    requires |p.epCapabilities| == NumEndpoints
    requires c.inited && c.phase == Powered
    ensures Run(c, p, calls).Some? ==> Run(c, p, calls).value.inited && Run(c, p, calls).value.phase == Powered
    decreases |calls|
  {
    if calls != [] {
      match Step(c, p, calls[0])
      case None =>
      case Some(c') =>
        PhaseStaysPowered(c', p, calls[1..]);
    }
  }
}

=== FILE: usb_types.dfy ===
/**
 Machine types, descriptor constants and build-time platform parameters shared
 by the model of the openiboot USB device-side control plane (usb.c).

 The structures, enumerations and sizes come from usb.h and hardware/usb.h,
 which are not part of this model. Where the value of a constant matters, it is
 taken from chapter 9 of the USB 2.0 specification, or it is derived from how
 usb.c uses it. Where nothing fixes the value, it enters as a field of
 `Platform` instead.
 */
module UsbTypes {

  /** C unsigned integer types; the model writes every truncation out explicitly. */
  type byte = x: int | 0 <= x < 0x100
  type uint16 = x: int | 0 <= x < 0x1_0000
  type uint32 = x: int | 0 <= x < 0x1_0000_0000

  /** A NULL-able pointer. */
  datatype Option<T> = None | Some(value: T)

  // Descriptor sizes (sizeof of the packed descriptor structs), as laid down in
  // sections 9.6.1, 9.6.3, 9.6.5, 9.6.6 and 9.6.7 of USB 2.0.
  const DeviceDescriptorSize: byte := 18
  const ConfigurationDescriptorSize: byte := 9
  const InterfaceDescriptorSize: byte := 9
  const EndpointDescriptorSize: byte := 7
  const StringDescriptorHeaderSize: byte := 2

  // bDescriptorType codes, Table 9-5 of USB 2.0.
  const DeviceDescriptorType: byte := 1
  const ConfigurationDescriptorType: byte := 2
  const StringDescriptorType: byte := 3
  const InterfaceDescriptorType: byte := 4
  const EndpointDescriptorType: byte := 5

  /** bcdUSB for release 2.0 of the specification (section 9.6.1). */
  const Usb20: uint16 := 0x0200

  /** LANGID of English (United States). */
  const LangIdEnglishUS: uint16 := 0x0409

  /** USBDirection. OUT is even and IN is odd: bit 0 becomes bit 7 of bEndpointAddress. */
  type Direction = nat
  const DirOut: Direction := 0
  const DirIn: Direction := 1
  const DirBiDir: Direction := 2

  // Transfer, synchronisation and usage types (bmAttributes of section 9.6.6).
  const TransferBulk: nat := 2
  const NoSynchronization: nat := 0
  const DataEndpoint: nat := 0

  // Enumerated-speed identifiers reported by the controller.
  const HighSpeed: byte := 0
  const FullSpeed: byte := 1
  const LowSpeed: byte := 2
  const FullSpeed48MHz: byte := 3

  /** USB_NUM_ENDPOINTS: the physical endpoints; usb.c also arms one more register block past them. */
  const NumEndpoints: nat := 6

  /** What USB_EP_DIRECTION(i) reports for an endpoint; `CapOther` is a value none of the switch cases name. */
  datatype EpCapability = CapBiDir | CapIn | CapOut | CapOther

  /** The build-time identity and hardware description the model takes as given. */
  datatype Platform = Platform(
    idVendor: uint16,
    idProduct: uint16,
    bcdDevice: uint16,
    bMaxPacketSize0: byte,
    interfaceClass: byte,
    interfaceSubClass: byte,
    interfaceProtocol: byte,
    epCapabilities: seq<EpCapability>)
}
